=== FILE: README.md ===
# Petkit W5 BLE/MQTT integration — a Dafny model

This project models the core of a Home Assistant integration for Petkit W5
pet feeders, which are reached over Bluetooth LE with MQTT as the planned
fallback. It covers four parts:

- **The device object** (`PetkitW5Device`, module `PetkitDevice`).
  - It builds the 13-byte feed-command frame and its checksum.
  - It tracks the `is_connected` / `client` / `last_data` state through
    `connect`, `disconnect`, `send_command`, `feed_now` and `get_status`.
- **The packaged coordinator** (module `Coordinator`).
  - `_setup_devices` builds the device registry and the default MQTT topic.
  - `_async_update_data` polls each device and keeps failures per device.
  - `feed_device` connects, sends, then asks for a refresh.
- **The older coordinator at the repository root** (module `RootCoordinator`).
  - Reads try BLE, then MQTT, then report `offline`.
  - Feeding tries BLE, then MQTT.
  - Both MQTT legs are stubs.
- **Address validation and device-list updates** (module `ConfigFlow`, with the
  address grammar in module `MacAddress`).
  - Both configuration flows validate an address with `_is_valid_mac`.
  - On success they append one device entry.

Every call into Bluetooth, the clock or Home Assistant is a parameter of type
`Io<T>`: the call either returned a value or raised an exception with a
message. Each operation is a pure function of its inputs and those outcomes.
A Python status dictionary is a `Record`: `{}`, offline, online with battery
and hopper levels, or error with a message. A device entry is a
`DeviceConfig`. An "unexpected exception" that escapes a device's own
handlers is an explicit `fault` parameter of the coordinators' poll.

Some behaviour of the code that the model states directly:

- The feed frame's checksum is computed while the last byte is still zero, so
  it is `(3 + amount) mod 256`.
- `bytearray` only accepts amounts 0..255. An amount outside that range fails
  before any write.
- In the packaged coordinator, a device that cannot be connected is reported
  as `offline`, not `error`.
- The packaged `feed_device` returns `False` when the refresh request raises,
  even though the frame was already written.
- In the root coordinator, the MQTT stubs mean a device is either BLE-online
  or `offline`. Without a fault it is never `error`, and feeding succeeds
  exactly when BLE does.
- `re.match` with `$` also matches before one final newline. So
  `"AA:BB:CC:DD:EE:FF\n"`, like any canonical address followed by one
  newline, is accepted and stored with its newline
  (`ConfigFlow.TrailingNewlineStored`).
- Connection state is the single `is_connected` flag together with whether a
  client object exists.
- No status frame is ever read from the feeder: `get_status` reports a fixed
  placeholder reading.
- The packaged device object has no MQTT fallback of its own.

## Model

| member | source | states |
|---|---|---|
| PetkitDevice.ChecksumSnoc | custom_components/petkit_w5_ble/petkit_device.py:50-52 | the checksum is a running sum kept in one byte: empty data gives 0, and appending a byte adds it modulo 256 |
| PetkitDevice.ChecksumConcat | custom_components/petkit_w5_ble/petkit_device.py:50-52 | the checksum of a concatenation is the byte-wise sum of the parts' checksums modulo 256 |
| PetkitDevice.ChecksumDetectsByteChange | custom_components/petkit_w5_ble/petkit_device.py:50-52 | replacing any single byte by a different value changes the checksum, so the trailing byte detects every single-byte corruption |
| PetkitDevice.FeedFrame | custom_components/petkit_w5_ble/petkit_device.py:66-69 | a frame is produced exactly for amounts 0..255, otherwise the `bytearray` ValueError; the frame has the feed layout (13 bytes, 0x01, 0x02, amount, nine zeros, checksum of the first twelve) and its last byte is (3 + amount) mod 256 |
| PetkitDevice.FeedFrameExactly | custom_components/petkit_w5_ble/petkit_device.py:68-69 | a frame has the feed layout for an amount if and only if it is the frame `feed_now` builds for that amount |
| PetkitDevice.DefaultFeedFrame | custom_components/petkit_w5_ble/petkit_device.py:66-69 | the default 10 g command is `01 02 0A 00 00 00 00 00 00 00 00 00 0D` |
| PetkitDevice.NewDevice | custom_components/petkit_w5_ble/petkit_device.py:19-25 | a new device has no client, is not connected, caches `{}` and satisfies the device invariant |
| PetkitDevice.Connect | custom_components/petkit_w5_ble/petkit_device.py:27-38 | afterwards `is_connected` equals the returned value, which is true exactly when the link reported connected; an exception yields `False`; the client is set; the cache is kept; the invariant is preserved |
| PetkitDevice.Disconnect | custom_components/petkit_w5_ble/petkit_device.py:40-48 | no-op unless connected with a client; a successful disconnect clears the flag; a failed one leaves the device unchanged; only the flag can change |
| PetkitDevice.DisconnectIdempotent | custom_components/petkit_w5_ble/petkit_device.py:40-48 | a second disconnect after a successful one changes nothing, whatever its outcome |
| PetkitDevice.SendCommand | custom_components/petkit_w5_ble/petkit_device.py:54-64 | nothing is written exactly when the device is not connected or has no client, and then the not-connected exception is raised; otherwise exactly the given frame is written and a failed write is re-raised |
| PetkitDevice.FeedNow | custom_components/petkit_w5_ble/petkit_device.py:66-71 | it succeeds exactly when the amount fits a byte, the device is connected with a client and the write returns; a byte-sized amount on a ready device writes exactly one frame, the feed frame for that amount, and the write's outcome is the result; on a device that is not ready nothing is written and the not-connected exception is raised; a bad amount writes nothing and raises the `bytearray` error |
| PetkitDevice.GetStatus | custom_components/petkit_w5_ble/petkit_device.py:73-91 | disconnected gives exactly offline with the device unchanged; connected gives the online record with battery 95 and food level 80 and caches it; a failing clock read gives the error record and keeps the cache |
| PetkitDevice.StatusCachesWhatItReports | custom_components/petkit_w5_ble/petkit_device.py:73-91 | after `get_status` the cache is the reported record when that record is online, and the previous cache otherwise |
| Coordinator.RemoveColonsFilters | custom_components/petkit_w5_ble/coordinator.py:38 | `replace(':', '')` leaves no colon, keeps every non-colon character of the input and adds none |
| Coordinator.RemoveColonsAppend | custom_components/petkit_w5_ble/coordinator.py:38 | removing colons distributes over concatenation, deletes a lone colon and keeps any other lone character, so it keeps the non-colon characters in order and with their multiplicity |
| Coordinator.RemoveColonsGrouped | custom_components/petkit_w5_ble/coordinator.py:38 | a grouped address becomes its two hex digits per group, in order: the k-th character of the result is the address's k-th digit |
| Coordinator.TopicFor | custom_components/petkit_w5_ble/coordinator.py:38 | a configured `mqtt_topic` is used as is; without one, a canonical address gets `petkit/w5/` followed by its twelve hex digits in their order in the address |
| Coordinator.DefaultTopicOfCanonical | custom_components/petkit_w5_ble/coordinator.py:38 | for a canonical address the default topic is `petkit/w5/` followed by exactly twelve upper-case hex digits, the k-th being the address's k-th digit |
| Coordinator.Setup | custom_components/petkit_w5_ble/coordinator.py:34-42 | the registry's keys are exactly the configured addresses; each address holds a fresh device built from the last entry naming it; every device is valid and filed under its own address |
| Coordinator.PollDevice | custom_components/petkit_w5_ble/coordinator.py:52-69 | a fault gives `{"status":"error"}` with its message and leaves the device untouched; a device still disconnected after the connect attempt is offline; a connected one is online with the placeholder reading, which it caches; connect is only attempted when disconnected |
| Coordinator.Cycle | custom_components/petkit_w5_ble/coordinator.py:48-69 | the loop adds exactly the configured addresses to the aggregate and leaves the registry's key set unchanged |
| Coordinator.CycleFrame | custom_components/petkit_w5_ble/coordinator.py:48-69 | the registry entry and the aggregate entry of an address that is not configured come out of the loop unchanged |
| Coordinator.CycleKeepsRegistryValid | custom_components/petkit_w5_ble/coordinator.py:48-69 | if every managed device met the device invariant before the loop, every one still does after it |
| Coordinator.UpdateData | custom_components/petkit_w5_ble/coordinator.py:44-71 | the aggregate's key set is exactly the set of configured addresses; the registry keeps its keys and stays valid |
| Coordinator.CycleDistinct | custom_components/petkit_w5_ble/coordinator.py:48-69 | with distinct addresses, each address's entry and new device state are exactly what polling that device produced |
| Coordinator.CycleIsolation | custom_components/petkit_w5_ble/coordinator.py:52-69 | an address's entry and device state depend only on the outcomes met by the entries naming it; faults or failures of other devices cannot change them |
| Coordinator.FeedDevice | custom_components/petkit_w5_ble/coordinator.py:73-98 | unknown address: `False` with no connect, write or refresh; failed connect: `False` with no write or refresh; a refresh is requested exactly after a successful write; `True` exactly when that refresh returns; apart from the refresh's own poll, only the fed device changes, and the registry stays valid |
| Coordinator.FeedReadyDevice | custom_components/petkit_w5_ble/coordinator.py:79-94 | a valid known device that is connected, or connects when asked, is connected afterwards; for a byte-sized amount exactly the feed frame for it is written; the call succeeds exactly when the amount fits a byte and the write and the refresh return |
| RootCoordinator.BleData | coordinator.py:55-70 | data is returned exactly when the session connects, the clock is read and the session closes cleanly, and it is then the placeholder reading; otherwise `None` (exception or not connected) |
| RootCoordinator.MqttData | coordinator.py:72-75 | the stub never yields truthy data |
| RootCoordinator.Fallback | coordinator.py:41-53 | the first truthy source wins, BLE before MQTT; with neither the result is exactly offline; the result is never `{}` |
| RootCoordinator.GetDeviceData | coordinator.py:41-75 | with the MQTT stub a device's data is the BLE data or offline; it is online exactly when the BLE session succeeded |
| RootCoordinator.DeviceEntry | coordinator.py:31-37 | a fault yields `{"status":"error"}` with its message; otherwise the entry is the placeholder reading or offline |
| RootCoordinator.UpdateData | coordinator.py:27-39 | the aggregate's key set is exactly the set of configured addresses |
| RootCoordinator.UpdateDataLast | coordinator.py:27-39 | each address's value is what polling the last entry for that address produced |
| RootCoordinator.UpdateDataEntries | coordinator.py:27-39 | every aggregate entry is online or offline unless some entry naming that address met a fault: the error path is reachable only through a fault |
| RootCoordinator.BleFeed | coordinator.py:93-104 | `True` exactly when the session connects and closes cleanly; `None` exactly when it connects as not connected and closes cleanly; `False` otherwise |
| RootCoordinator.MqttFeed | coordinator.py:106-109 | the stub never reports success |
| RootCoordinator.FeedWith | coordinator.py:79-87 | the result is `True` exactly when one of the two legs returned `True`; MQTT is tried exactly when BLE did not succeed, and its answer is then returned as it is |
| RootCoordinator.FeedDevice | coordinator.py:77-109 | an exception caught by the handler gives `False`; with the MQTT stub, feeding returns `True` exactly when BLE did; MQTT is tried exactly when BLE did not succeed; the answer is never `None` |
| MacAddress.IsValidMac | custom_components/petkit_w5_ble/config_flow.py:108-112 | accepts an ASCII string exactly when its upper-cased form is six two-digit hex groups joined by single colons, optionally followed by one newline; the identical copy at lines 178-182 is the same function |
| MacAddress.PatternMatchesShape | custom_components/petkit_w5_ble/config_flow.py:111 | the left-to-right reading of the regular expression accepts exactly the grouped strings, with or without one trailing newline |
| MacAddress.ValidationIgnoresCase | custom_components/petkit_w5_ble/config_flow.py:112 | an address and its upper-cased form are accepted or rejected together |
| ConfigFlow.NewEntry | custom_components/petkit_w5_ble/config_flow.py:62-71 | upper-casing keeps an address valid or invalid; an accepted address is stored upper-case in canonical form, or canonical form plus one newline, with the user's name and topic |
| ConfigFlow.StepDevice | custom_components/petkit_w5_ble/config_flow.py:56-86 | no input shows the form; an invalid address sets `errors["mac"] = "invalid_mac"` and leaves the list unchanged; a valid one appends exactly its entry and moves on; stored form is preserved |
| ConfigFlow.StepAddDevice | custom_components/petkit_w5_ble/config_flow.py:133-159 | an invalid address writes nothing and reports `invalid_mac`; a valid one writes a copy of the entry's list, an absent list reading as empty, with one entry appended, and keeps every other key |
| ConfigFlow.FlowsAgree | custom_components/petkit_w5_ble/config_flow.py:138-149 | both flows accept and reject alike; on acceptance they produce the same list: the old list as a prefix plus one entry with the upper-cased address |
| ConfigFlow.LowerCaseAccepted | custom_components/petkit_w5_ble/config_flow.py:108-112 | `aa:bb:cc:dd:ee:ff` is accepted and stored as `AA:BB:CC:DD:EE:FF` |
| ConfigFlow.MalformedRejected | custom_components/petkit_w5_ble/config_flow.py:111 | `AA:BB:CC:DD:EE` and `GG:BB:CC:DD:EE:FF` are rejected |
| ConfigFlow.TrailingNewlineAccepted | custom_components/petkit_w5_ble/config_flow.py:111-112 | `AA:BB:CC:DD:EE:FF` followed by a newline is accepted |
| ConfigFlow.TrailingNewlineStored | custom_components/petkit_w5_ble/config_flow.py:62-71 | every canonical address followed by one newline is accepted and stored with the newline |

## Left out

- BLE I/O (`BleakClient`, GATT UUIDs, `write_gatt_char`, `async with` sessions): each awaited call is an `Io` outcome parameter. In some bleak versions `is_connected` is a property, and calling it as `is_connected()` would raise. That case is covered by a `Raised` outcome of the connect link.
- `PetkitDevice.Connect`: creating the `BleakClient` object is taken never to raise, so the client is always set.
- MQTT plumbing (`setup_mqtt`, `publish_mqtt`, `on_mqtt_message`): it needs paho, and none of it changes device state. The inbound handler also ignores the amount it parses. The registry records the topic handed to `setup_mqtt`, not whether the broker connection succeeded.
- `Coordinator.PollDevice`: the device methods catch `Exception` themselves. So the coordinator's handler is reached only by a fault, which the model takes to strike before the device is touched.
- `RootCoordinator.DeviceEntry`: a fault stands for an exception escaping `_get_device_data`.
- Device entries without a `"mac"` key: both flows always write one. In the root coordinator the handler itself would re-raise the `KeyError`.
- `Coordinator.Cycle` requires every configured address to be in the registry. The source would raise `KeyError` outside the `try` otherwise. The registry is always built from the same list, so this always holds.
- `Coordinator.FeedDevice`: the awaited `async_request_refresh()` normally runs `_async_update_data` at once, which polls every configured device before `feed_device` returns. That poll is not modelled: the refresh is a flag with an outcome. So "only the fed device changes" holds of the model only; the poll itself is `Coordinator.UpdateData`.
- `RootCoordinator.FeedDevice`: the BLE leg catches `Exception` itself and the MQTT stub only returns `False`, so the outer handler is reached only by a `fault`, which the model takes to strike before MQTT is tried.
- `async_shutdown` of both coordinators, `DataUpdateCoordinator` scheduling, `async_request_refresh` internals and the `hass.data` lifecycle in `__init__.py`: these are Home Assistant framework code. A refresh request is a recorded flag with an `Io` outcome.
- `last_update` timestamps: they come from the event loop or Home Assistant clock. The clock read is modelled only as an outcome that may raise.
- voluptuous schemas, form rendering, `async_step_user`, `async_step_connection`, `async_step_add_another`, `async_step_init` and `async_step_manage_devices`: these are UI and menu plumbing with no logic on the device list beyond what is modelled.
- The entity adapters in `sensor.py`, `switch.py` and `device_tracker.py`: they are thin projections of the aggregate. The root `config_flow.py` holds only constants.
- `MacAddress.IsValidMac`: it requires ASCII input, because `str.upper` on other characters can change the length. For example, U+FB00 upper-cases to `FF`.
- Concurrency: nothing in the code serialises access, and each `await` runs in sequence, so each operation is one sequential step.

=== FILE: base.dfy ===
/** Values shared by every part of the model of the Petkit W5 integration:
    optional values, the outcome of a call into code outside the model, the
    status dictionaries the integration passes around and the device entries
    of a configuration entry. */
module Base {

  /** Python's `None` or a value. */
  datatype Option<+T> = None | Some(value: T) {
    /** The value, or `default` when there is none (`dict.get(key, default)`). */
    function GetOr(default: T): T {
      match this
      case Some(v) => v
      case None => default
    }
  }

  /** What an awaited call into code outside the model did: it returned
      `value`, or it raised an exception whose `str()` is `message`. */
  datatype Io<+T> = Returned(value: T) | Raised(message: string)

  /** The status dictionaries of the integration. The `last_update` timestamp
      that accompanies an online record is not modelled. */
  datatype Record =
    | Empty                                 // {}
    | Offline                               // {"status": "offline"}
    | Online(battery: int, foodLevel: int)  // {"status": "online", "battery": .., "food_level": .., ...}
    | Error(message: string)                // {"status": "error", "error": message}

  /** Both coordinators report the same placeholder reading for a reachable
      device: battery 95 %, hopper 80 %. */
  const PLACEHOLDER_BATTERY := 95
  const PLACEHOLDER_FOOD_LEVEL := 80
  const PLACEHOLDER: Record := Online(PLACEHOLDER_BATTERY, PLACEHOLDER_FOOD_LEVEL)

  /** Python truthiness of an optional dictionary: `None` and `{}` are false. */
  predicate Truthy(o: Option<Record>) {
    o.Some? && o.value != Empty
  }

  /** One entry of the "devices" list of a configuration entry. `mqttTopic`
      is `None` when the dictionary has no "mqtt_topic" key. */
  datatype DeviceConfig = DeviceConfig(mac: string, name: string, mqttTopic: Option<string>)

  /** The addresses named by a list of device entries. */
  function MacsOf(configs: seq<DeviceConfig>): set<string> {
    set i | 0 <= i < |configs| :: configs[i].mac
  }

  /** Entry `i` is the last one in `configs` that names its address, so a
      dictionary keyed by address keeps what was stored for it. */
  predicate LastFor(configs: seq<DeviceConfig>, i: int)
    requires 0 <= i < |configs|
  {
    forall j :: i < j < |configs| ==> configs[j].mac != configs[i].mac
  }

  /** Dropping the final entry keeps every other entry that was last for its
      address last for it. */
  lemma LastForPrefix(configs: seq<DeviceConfig>)
    requires |configs| > 0
    ensures var prefix := configs[..|configs| - 1];
      forall i :: 0 <= i < |prefix| && LastFor(configs, i) ==> LastFor(prefix, i)
  {
  }

  /** No two entries name the same address. */
  predicate DistinctMacs(configs: seq<DeviceConfig>) {
    forall i, j :: 0 <= i < j < |configs| ==> configs[i].mac != configs[j].mac
  }

  lemma MacsOfSnoc(configs: seq<DeviceConfig>, c: DeviceConfig)
    ensures MacsOf(configs + [c]) == MacsOf(configs) + {c.mac}
  {
    var s := configs + [c];
    assert s[|configs|] == c;
    forall m | m in MacsOf(s) ensures m in MacsOf(configs) + {c.mac} {
      var i :| 0 <= i < |s| && s[i].mac == m;
      if i < |configs| {
        assert configs[i] == s[i];
      }
    }
    forall m | m in MacsOf(configs) ensures m in MacsOf(s) {
      var i :| 0 <= i < |configs| && configs[i].mac == m;
      assert s[i] == configs[i];
    }
  }

  lemma MacsOfCons(c: DeviceConfig, configs: seq<DeviceConfig>)
    ensures MacsOf([c] + configs) == {c.mac} + MacsOf(configs)
  {
    var s := [c] + configs;
    assert s[0] == c;
    forall m | m in MacsOf(s) ensures m in {c.mac} + MacsOf(configs) {
      var i :| 0 <= i < |s| && s[i].mac == m;
      if 0 < i {
        assert configs[i - 1] == s[i];
      }
    }
    forall m | m in MacsOf(configs) ensures m in MacsOf(s) {
      var i :| 0 <= i < |configs| && configs[i].mac == m;
      assert s[i + 1] == configs[i];
    }
  }
}

=== FILE: config_flow.dfy ===
/** The device steps of the configuration flow and of the options flow:
    each validates the address the user typed and, when it is valid, appends
    one device entry with the address upper-cased. */
module ConfigFlow {
  import opened Base
  import opened MacAddress

  const CONF_MAC := "mac"
  const INVALID_MAC := "invalid_mac"

  /** What the user typed into the device form. */
  datatype DeviceInput = DeviceInput(name: string, mac: string, mqttTopic: string)

  /** Where a step goes next: its form again with these errors, the
      "add another device" question, or the end of the options flow. */
  datatype Next = ShowForm(errors: map<string, string>) | AskAddAnother | CreateEntry

  /** The device list of the configuration flow after a step, and where it goes. */
  datatype DeviceStep = DeviceStep(devices: seq<DeviceConfig>, next: Next)

  /** The entry data of an existing configuration entry: its "devices" list,
      if it has one, and every other key, which the options flow copies. */
  datatype EntryData = EntryData(devices: Option<seq<DeviceConfig>>, settings: map<string, string>)

  /** What the options step did: the data it wrote back to the entry, if any. */
  datatype OptionsStep = OptionsStep(update: Option<EntryData>, next: Next)

  /** The entry both flows append for a valid input: the address is
      upper-cased, which keeps it valid, and an accepted address is stored in
      the form `Stored` describes. */
  function NewEntry(input: DeviceInput): (c: DeviceConfig)
    ensures c.mac == Upper(input.mac) && c.name == input.name && c.mqttTopic == Some(input.mqttTopic)
    ensures IsAscii(input.mac) ==> IsAscii(c.mac) && IsValidMac(c.mac) == IsValidMac(input.mac)
    ensures IsAscii(input.mac) && IsValidMac(input.mac) ==> Stored(c)
  {
    UpperIdempotent(input.mac);
    DeviceConfig(Upper(input.mac), input.name, Some(input.mqttTopic))
  }

  /** How every address the flows store looks: upper-case, in canonical form
      (possibly followed by the one newline `$` lets through), with a topic. */
  predicate Stored(c: DeviceConfig) {
    && IsAscii(c.mac)
    && Upper(c.mac) == c.mac
    && (Canonical(c.mac) || WithTrailingNewline(c.mac))
    && c.mqttTopic.Some?
  }

  predicate AllStored(devices: seq<DeviceConfig>) {
    forall i :: 0 <= i < |devices| ==> Stored(devices[i])
  }

  /** `async_step_device` of the configuration flow. */
  function StepDevice(devices: seq<DeviceConfig>, input: Option<DeviceInput>): (r: DeviceStep)
    requires input.Some? ==> IsAscii(input.value.mac)
    ensures input.None? ==> r == DeviceStep(devices, ShowForm(map[]))
    ensures input.Some? && !IsValidMac(input.value.mac) ==>
      r == DeviceStep(devices, ShowForm(map[CONF_MAC := INVALID_MAC]))
    ensures input.Some? && IsValidMac(input.value.mac) ==>
      r == DeviceStep(devices + [NewEntry(input.value)], AskAddAnother)
    ensures AllStored(devices) ==> AllStored(r.devices)
  {
    match input
    case None => DeviceStep(devices, ShowForm(map[]))
    case Some(user) =>
      if !IsValidMac(user.mac) then
        DeviceStep(devices, ShowForm(map[CONF_MAC := INVALID_MAC]))
      else
        DeviceStep(devices + [NewEntry(user)], AskAddAnother)
  }

  /** `async_step_add_device` of the options flow: the new list is a copy of
      the entry's list (an absent list reads as empty) with one entry
      appended, written back with every other key of the entry kept. */
  function StepAddDevice(entry: EntryData, input: Option<DeviceInput>): (r: OptionsStep)
    requires input.Some? ==> IsAscii(input.value.mac)
    ensures input.None? ==> r == OptionsStep(None, ShowForm(map[]))
    ensures input.Some? && !IsValidMac(input.value.mac) ==>
      r == OptionsStep(None, ShowForm(map[CONF_MAC := INVALID_MAC]))
    ensures input.Some? && IsValidMac(input.value.mac) ==>
      && r.next == CreateEntry
      && r.update.Some?
      && r.update.value.settings == entry.settings
      && r.update.value.devices == Some(entry.devices.GetOr([]) + [NewEntry(input.value)])
    ensures r.update.Some? && AllStored(entry.devices.GetOr([])) ==>
      AllStored(r.update.value.devices.GetOr([]))
  {
    match input
    case None => OptionsStep(None, ShowForm(map[]))
    case Some(user) =>
      if !IsValidMac(user.mac) then
        OptionsStep(None, ShowForm(map[CONF_MAC := INVALID_MAC]))
      else
        var devices := entry.devices.GetOr([]) + [NewEntry(user)];
        OptionsStep(Some(EntryData(Some(devices), entry.settings)), CreateEntry)
  }

  /** The two flows validate alike and, for an accepted input, grow the same
      list by the same entry: the old list is kept as a prefix and exactly
      one entry follows it. */
  lemma FlowsAgree(devices: seq<DeviceConfig>, settings: map<string, string>, input: DeviceInput)
    requires IsAscii(input.mac)
    ensures var flow := StepDevice(devices, Some(input));
            var options := StepAddDevice(EntryData(Some(devices), settings), Some(input));
      && (flow.next.ShowForm? <==> options.next.ShowForm?)
      && (flow.next.ShowForm? ==> flow.next == options.next && flow.devices == devices && options.update.None?)
      && (!flow.next.ShowForm? ==>
            && options.update.value.devices == Some(flow.devices)
            && |flow.devices| == |devices| + 1
            && flow.devices[..|devices|] == devices
            && flow.devices[|devices|].mac == Upper(input.mac))
  {
  }

  lemma SampleCanonical()
    ensures Canonical("AA:BB:CC:DD:EE:FF")
  {
  }

  /** Addresses are accepted whatever their case. */
  lemma LowerCaseAccepted()
    ensures IsValidMac("aa:bb:cc:dd:ee:ff")
    ensures StepDevice([], Some(DeviceInput("Petkit W5", "aa:bb:cc:dd:ee:ff", "petkit/w5"))).devices
         == [DeviceConfig("AA:BB:CC:DD:EE:FF", "Petkit W5", Some("petkit/w5"))]
  {
    var s, v := "aa:bb:cc:dd:ee:ff", "AA:BB:CC:DD:EE:FF";
    assert Upper(s) == v by {
      forall i | 0 <= i < |s| ensures Upper(s)[i] == v[i] {
        assert UpperChar(s[i]) == v[i];
      }
    }
    SampleCanonical();
  }

  /** Five groups and non-hex digits are refused. */
  lemma MalformedRejected()
    ensures !IsValidMac("AA:BB:CC:DD:EE")
    ensures !IsValidMac("GG:BB:CC:DD:EE:FF")
  {
    assert |Upper("AA:BB:CC:DD:EE")| == 14;
    assert Upper("GG:BB:CC:DD:EE:FF")[0] == 'G';
  }

  /** Because `$` also matches before a final newline, an address followed
      by one newline is accepted. */
  lemma TrailingNewlineAccepted()
    ensures IsValidMac("AA:BB:CC:DD:EE:FF\n")
  {
    var s := "AA:BB:CC:DD:EE:FF\n";
    UpperOfUpperCase(s);
    SampleCanonical();
    assert s[..17] == "AA:BB:CC:DD:EE:FF";
  }

  /** Every canonical address followed by one newline is accepted, and it is
      stored with that newline. */
  lemma TrailingNewlineStored(v: string, name: string, topic: string)
    requires Canonical(v)
    ensures IsAscii(v + "\n") && IsValidMac(v + "\n")
    ensures StepDevice([], Some(DeviceInput(name, v + "\n", topic))).devices
         == [DeviceConfig(v + "\n", name, Some(topic))]
  {
    var s := v + "\n";
    assert forall i :: 0 <= i < |s| ==> s[i] == '\n' || s[i] == ':' || IsHexUpper(s[i]) by {
      forall i | 0 <= i < |s| ensures s[i] == '\n' || s[i] == ':' || IsHexUpper(s[i]) {
        if i < |v| {
          assert s[i] == v[i];
        }
      }
    }
    UpperOfUpperCase(s);
    assert s[..17] == v;
  }

  /** A string without lower-case letters is its own upper-cased form. */
  lemma UpperOfUpperCase(s: string)
    requires forall i :: 0 <= i < |s| ==> !('a' <= s[i] <= 'z')
    ensures Upper(s) == s
  {
  }
}

=== FILE: coordinator.dfy ===
/** The `PetkitW5Coordinator` of the packaged integration: it builds one
    device object per configured address, polls every device each cycle with
    each device's failure kept to that device's entry, and feeds on demand.
    The BLE outcomes each device meets are parameters. */
module Coordinator {
  import opened Base
  import opened PetkitDevice
  import MacAddress

  const TOPIC_PREFIX := "petkit/w5/"

  /** `str.replace(':', '')`. */
  function RemoveColons(s: string): (r: string)
    ensures |r| <= |s|
  {
    if |s| == 0 then []
    else if s[0] == ':' then RemoveColons(s[1..])
    else [s[0]] + RemoveColons(s[1..])
  }

  /** The result has no colon, holds only characters of the input and holds
      every non-colon character of it. */
  lemma {:induction false} RemoveColonsFilters(s: string)
    ensures ':' !in RemoveColons(s)
    ensures forall c :: c in RemoveColons(s) ==> c in s
    ensures forall i :: 0 <= i < |s| && s[i] != ':' ==> s[i] in RemoveColons(s)
    decreases |s|
  {
    if |s| > 0 {
      RemoveColonsFilters(s[1..]);
      assert forall i :: 1 <= i < |s| ==> s[i] == s[1..][i - 1];
    }
  }

  /** Removing colons distributes over concatenation, so together with its
      value on single characters it determines the result: every non-colon
      character is kept, in order and as often as it occurs. */
  lemma {:induction false} RemoveColonsAppend(a: string, b: string)
    ensures RemoveColons([]) == []
    ensures |a| == 1 ==> RemoveColons(a) == if a[0] == ':' then [] else a
    ensures RemoveColons(a + b) == RemoveColons(a) + RemoveColons(b)
    decreases |a|
  {
    if |a| == 0 {
      assert a + b == b;
    } else {
      assert (a + b)[0] == a[0] && (a + b)[1..] == a[1..] + b;
      RemoveColonsAppend(a[1..], b);
      if |a| == 1 {
        assert a[1..] == [];
      }
    }
  }

  /** Where the `k`-th hex digit sits in a grouped address: two digits per
      group of three characters. */
  function DigitIndex(k: nat): (i: nat)
    ensures 2 * i <= 3 * k <= 2 * i + 1
  {
    k + k / 2
  }

  lemma DigitIndexStep(k: int)
    requires k >= 2
    ensures DigitIndex(k) == 3 + DigitIndex(k - 2)
  {
    assert k / 2 == (k - 2) / 2 + 1;
  }

  /** The topic a device gets when its entry names none. */
  function DefaultTopic(mac: string): string {
    TOPIC_PREFIX + RemoveColons(mac)
  }

  /** `device_config.get("mqtt_topic", default)`: a configured topic is used
      as it is; otherwise a canonical address gives the prefix followed by
      its twelve hex digits in order. */
  function TopicFor(c: DeviceConfig): (t: string)
    ensures c.mqttTopic.Some? ==> t == c.mqttTopic.value
    ensures c.mqttTopic.None? ==> t == DefaultTopic(c.mac)
    ensures c.mqttTopic.None? && MacAddress.Canonical(c.mac) ==>
      && |t| == |TOPIC_PREFIX| + 12
      && t[..|TOPIC_PREFIX|] == TOPIC_PREFIX
      && forall k :: 0 <= k < 12 ==> t[|TOPIC_PREFIX|..][k] == c.mac[DigitIndex(k)]
  {
    match c.mqttTopic
    case Some(topic) => topic
    case None =>
      if MacAddress.Canonical(c.mac) then
        DefaultTopicOfCanonical(c.mac);
        DefaultTopic(c.mac)
      else
        DefaultTopic(c.mac)
  }

  /** Removing colons from one leading group and its separator. */
  lemma RemoveColonsGroup(u: string)
    requires |u| >= 3 && u[0] != ':' && u[1] != ':' && u[2] == ':'
    ensures RemoveColons(u) == [u[0], u[1]] + RemoveColons(u[3..])
  {
    assert u[1..][0] == u[1] && u[1..][1..] == u[2..];
    assert u[2..][0] == ':' && u[2..][1..] == u[3..];
    assert RemoveColons(u[2..]) == RemoveColons(u[3..]);
    assert RemoveColons(u[1..]) == [u[1]] + RemoveColons(u[3..]);
  }

  /** A grouped address loses exactly its separators: what is left is its
      two upper-case hex digits per group, in order. */
  lemma {:induction false} RemoveColonsGrouped(u: string, groups: nat)
    requires MacAddress.Grouped(u, groups)
    ensures |RemoveColons(u)| == 2 * groups
    ensures forall i :: 0 <= i < |RemoveColons(u)| ==> MacAddress.IsHexUpper(RemoveColons(u)[i])
    ensures forall k :: 0 <= k < 2 * groups ==> RemoveColons(u)[k] == u[DigitIndex(k)]
    decreases groups
  {
    assert MacAddress.IsHexUpper(u[0]) && MacAddress.IsHexUpper(u[1]) by {
      assert 0 % 3 == 0 && 1 % 3 == 1;
    }
    assert DigitIndex(0) == 0 && DigitIndex(1) == 1;
    if groups == 1 {
      assert u[1..][0] == u[1] && u[1..][1..] == [];
      assert RemoveColons(u) == [u[0], u[1]];
    } else {
      MacAddress.GroupedStep(u, groups);
      var rest := u[3..];
      RemoveColonsGroup(u);
      RemoveColonsGrouped(rest, groups - 1);
      forall k | 2 <= k < 2 * groups
        ensures RemoveColons(u)[k] == u[DigitIndex(k)]
      {
        assert RemoveColons(u)[k] == RemoveColons(rest)[k - 2];
        DigitIndexStep(k);
      }
    }
  }

  /** The default topic of a canonical address is the prefix followed by its
      twelve hex digits in order, e.g. `petkit/w5/AABBCCDDEEFF`. */
  lemma DefaultTopicOfCanonical(mac: string)
    requires MacAddress.Canonical(mac)
    ensures |DefaultTopic(mac)| == |TOPIC_PREFIX| + 12
    ensures DefaultTopic(mac)[..|TOPIC_PREFIX|] == TOPIC_PREFIX
    ensures forall i :: |TOPIC_PREFIX| <= i < |DefaultTopic(mac)| ==>
      MacAddress.IsHexUpper(DefaultTopic(mac)[i])
    ensures forall k :: 0 <= k < 12 ==> DefaultTopic(mac)[|TOPIC_PREFIX|..][k] == mac[DigitIndex(k)]
  {
    RemoveColonsGrouped(mac, 6);
    var t := DefaultTopic(mac);
    assert t[|TOPIC_PREFIX|..] == RemoveColons(mac);
    forall i | |TOPIC_PREFIX| <= i < |t|
      ensures MacAddress.IsHexUpper(t[i])
    {
      assert t[i] == RemoveColons(mac)[i - |TOPIC_PREFIX|];
    }
  }

  /** What `petkit_devices` holds for one address: the device object and the
      topic handed to its `setup_mqtt`. */
  datatype Managed = Managed(device: Device, topic: string)

  type Registry = map<string, Managed>

  /** Every device in the registry is valid and filed under its own address. */
  predicate RegistryValid(registry: Registry) {
    forall m :: m in registry ==> Valid(registry[m].device) && registry[m].device.mac == m
  }

  function Register(c: DeviceConfig): Managed {
    Managed(NewDevice(c.mac), TopicFor(c))
  }

  /** `_setup_devices`: one fresh device per configured address, a later
      entry for the same address replacing an earlier one. */
  function Setup(configs: seq<DeviceConfig>): (reg: Registry)
    ensures reg.Keys == MacsOf(configs)
    ensures forall i :: 0 <= i < |configs| && LastFor(configs, i) ==>
      reg[configs[i].mac] == Register(configs[i])
    ensures RegistryValid(reg)
  {
    if |configs| == 0 then map[]
    else
      var n := |configs| - 1;
      var prefix := configs[..n];
      assert configs == prefix + [configs[n]];
      MacsOfSnoc(prefix, configs[n]);
      LastForPrefix(configs);
      Setup(prefix)[configs[n].mac := Register(configs[n])]
  }

  /** The outcomes one device meets in one poll: the BLE connect (only
      awaited when the device is disconnected), the event-loop clock read by
      `get_status`, and `fault`, an exception escaping the device's own
      handlers, which the coordinator catches. A fault is taken to strike
      before the device is touched. */
  datatype PollIo = PollIo(link: Io<bool>, clock: Io<()>, fault: Option<string>)

  /** The body of the per-device `try` block of `_async_update_data` with
      its `except` handler. Publishing to MQTT does not change the device
      and is not modelled. */
  function PollDevice(d: Device, io: PollIo): (r: After<Record>)
    ensures io.fault.Some? ==> r == After(d, Error(io.fault.value))
    ensures io.fault.None? && !r.device.isConnected ==> r.result == Offline
    ensures io.fault.None? && r.device.isConnected && io.clock.Returned? ==>
      r.result == PLACEHOLDER && r.device.lastData == PLACEHOLDER
    ensures io.fault.None? && r.device.isConnected && io.clock.Raised? ==>
      r.result == Error(io.clock.message)
    ensures io.fault.None? ==>
      r.device.isConnected == (d.isConnected || io.link == Returned(true))
    ensures r.device.mac == d.mac
    ensures Valid(d) ==> Valid(r.device)
  {
    match io.fault
    case Some(message) => After(d, Error(message))
    case None =>
      var d1 := if !d.isConnected then Connect(d, io.link).device else d;
      if d1.isConnected then GetStatus(d1, io.clock)
      else After(d1, Offline)
  }

  /** The state a poll cycle threads from device to device, and the
      aggregate it builds. */
  datatype Snapshot = Snapshot(registry: Registry, data: map<string, Record>)

  /** The loop of `_async_update_data` over the remaining entries, starting
      from `registry` and the aggregate built so far. */
  function Cycle(registry: Registry, data: map<string, Record>,
                 configs: seq<DeviceConfig>, ios: seq<PollIo>): (r: Snapshot)
    requires |ios| == |configs|
    requires MacsOf(configs) <= registry.Keys
    ensures r.data.Keys == data.Keys + MacsOf(configs)
    ensures r.registry.Keys == registry.Keys
    decreases |configs|
  {
    if |configs| == 0 then Snapshot(registry, data)
    else
      MacsOfCons(configs[0], configs[1..]);
      assert configs == [configs[0]] + configs[1..];
      var mac := configs[0].mac;
      var entry := registry[mac];
      var step := PollDevice(entry.device, ios[0]);
      Cycle(registry[mac := entry.(device := step.device)], data[mac := step.result],
            configs[1..], ios[1..])
  }

  /** A poll cycle touches neither the device nor the entry of an address
      it was not configured with. */
  lemma {:induction false} CycleFrame(registry: Registry, data: map<string, Record>,
                                      configs: seq<DeviceConfig>, ios: seq<PollIo>, m: string)
    requires |ios| == |configs|
    requires MacsOf(configs) <= registry.Keys
    requires m !in MacsOf(configs)
    ensures var r := Cycle(registry, data, configs, ios);
      && (m in registry ==> r.registry[m] == registry[m])
      && (m in data ==> r.data[m] == data[m])
    decreases |configs|
  {
    if |configs| > 0 {
      MacsOfCons(configs[0], configs[1..]);
      assert configs == [configs[0]] + configs[1..];
      var mac := configs[0].mac;
      var entry := registry[mac];
      var step := PollDevice(entry.device, ios[0]);
      CycleFrame(registry[mac := entry.(device := step.device)], data[mac := step.result],
                 configs[1..], ios[1..], m);
    }
  }

  /** A poll cycle keeps every device of the registry valid. */
  lemma {:induction false} CycleKeepsRegistryValid(registry: Registry, data: map<string, Record>,
                                                   configs: seq<DeviceConfig>, ios: seq<PollIo>)
    requires |ios| == |configs|
    requires MacsOf(configs) <= registry.Keys
    ensures RegistryValid(registry) ==> RegistryValid(Cycle(registry, data, configs, ios).registry)
    decreases |configs|
  {
    if |configs| > 0 {
      MacsOfCons(configs[0], configs[1..]);
      assert configs == [configs[0]] + configs[1..];
      var mac := configs[0].mac;
      var entry := registry[mac];
      var step := PollDevice(entry.device, ios[0]);
      PollKeepsRegistryValid(registry, mac, ios[0]);
      CycleKeepsRegistryValid(registry[mac := entry.(device := step.device)], data[mac := step.result],
                              configs[1..], ios[1..]);
    }
  }

  lemma PollKeepsRegistryValid(registry: Registry, mac: string, io: PollIo)
    requires mac in registry
    ensures var entry := registry[mac];
      RegistryValid(registry) ==>
      RegistryValid(registry[mac := entry.(device := PollDevice(entry.device, io).device)])
  {
  }

  /** `_async_update_data`: the aggregate has exactly one entry per
      configured address. */
  function UpdateData(registry: Registry, configs: seq<DeviceConfig>, ios: seq<PollIo>): (r: Snapshot)
    requires |ios| == |configs|
    requires MacsOf(configs) <= registry.Keys
    ensures r.data.Keys == MacsOf(configs)
    ensures r.registry.Keys == registry.Keys
    ensures RegistryValid(registry) ==> RegistryValid(r.registry)
  {
    CycleKeepsRegistryValid(registry, map[], configs, ios);
    Cycle(registry, map[], configs, ios)
  }

  /** With distinct addresses, each device's entry is what polling that
      device produced, and its new state is the state that poll left. */
  lemma {:induction false} CycleDistinct(registry: Registry, data: map<string, Record>,
                                         configs: seq<DeviceConfig>, ios: seq<PollIo>)
    requires |ios| == |configs|
    requires MacsOf(configs) <= registry.Keys
    requires DistinctMacs(configs)
    ensures forall i :: 0 <= i < |configs| ==>
      var step := PollDevice(registry[configs[i].mac].device, ios[i]);
      && Cycle(registry, data, configs, ios).data[configs[i].mac] == step.result
      && Cycle(registry, data, configs, ios).registry[configs[i].mac].device == step.device
    decreases |configs|
  {
    if |configs| > 0 {
      MacsOfCons(configs[0], configs[1..]);
      assert configs == [configs[0]] + configs[1..];
      var mac := configs[0].mac;
      var entry := registry[mac];
      var step := PollDevice(entry.device, ios[0]);
      var registry', data' := registry[mac := entry.(device := step.device)], data[mac := step.result];
      var rest := configs[1..];
      assert DistinctMacs(rest) by {
        forall i, j | 0 <= i < j < |rest| ensures rest[i].mac != rest[j].mac {
          assert rest[i] == configs[i + 1] && rest[j] == configs[j + 1];
        }
      }
      assert mac !in MacsOf(rest) by {
        forall i | 0 <= i < |rest| ensures rest[i].mac != mac {
          assert rest[i] == configs[i + 1];
        }
      }
      CycleDistinct(registry', data', rest, ios[1..]);
      CycleFrame(registry', data', rest, ios[1..], mac);
      forall i | 1 <= i < |configs|
        ensures configs[i].mac != mac && registry'[configs[i].mac] == registry[configs[i].mac]
      {
        assert configs[i] == rest[i - 1];
      }
      forall i | 1 <= i < |configs|
        ensures ios[i] == ios[1..][i - 1] && configs[i] == rest[i - 1]
      {
      }
    }
  }

  /** Fault isolation: the entry and the state of address `m` depend only on
      the outcomes met by the entries naming `m`. Whatever happens to any
      other device, including an exception, leaves them as they are. */
  lemma {:induction false} CycleIsolation(registry: Registry, registry': Registry,
                                          data: map<string, Record>, data': map<string, Record>,
                                          configs: seq<DeviceConfig>, ios: seq<PollIo>, ios': seq<PollIo>,
                                          m: string)
    requires |ios| == |configs| && |ios'| == |configs|
    requires MacsOf(configs) <= registry.Keys && MacsOf(configs) <= registry'.Keys
    requires (m in registry <==> m in registry') && (m in registry ==> registry[m] == registry'[m])
    requires (m in data <==> m in data') && (m in data ==> data[m] == data'[m])
    requires forall i :: 0 <= i < |configs| && configs[i].mac == m ==> ios[i] == ios'[i]
    ensures var r, r' := Cycle(registry, data, configs, ios), Cycle(registry', data', configs, ios');
      && (m in r.registry <==> m in r'.registry)
      && (m in r.registry ==> r.registry[m] == r'.registry[m])
      && (m in r.data <==> m in r'.data)
      && (m in r.data ==> r.data[m] == r'.data[m])
    decreases |configs|
  {
    if |configs| > 0 {
      MacsOfCons(configs[0], configs[1..]);
      assert configs == [configs[0]] + configs[1..];
      var mac := configs[0].mac;
      var step := PollDevice(registry[mac].device, ios[0]);
      var step' := PollDevice(registry'[mac].device, ios'[0]);
      var rest := configs[1..];
      forall i | 0 <= i < |rest| && rest[i].mac == m ensures ios[1..][i] == ios'[1..][i] {
        assert rest[i] == configs[i + 1];
      }
      CycleIsolation(registry[mac := registry[mac].(device := step.device)],
                     registry'[mac := registry'[mac].(device := step'.device)],
                     data[mac := step.result], data'[mac := step'.result],
                     rest, ios[1..], ios'[1..], m);
    }
  }

  /** The outcomes of one `feed_device` call: the BLE connect (only awaited
      when the device is disconnected), the GATT write, and the refresh
      request made after a successful send. */
  datatype FeedIo = FeedIo(link: Io<bool>, write: Io<()>, refresh: Io<()>)

  /** What one `feed_device` call did. */
  datatype FeedTrace = FeedTrace(registry: Registry, ok: bool, connectAttempted: bool,
                                 writes: seq<Frame>, refreshRequested: bool)

  /** `feed_device`: an unknown address is refused with no I/O at all; a
      disconnected device is connected first and the call gives up if that
      fails; otherwise the feed frame is sent and a refresh requested. Any
      exception on the way makes the result `False`. */
  function FeedDevice(registry: Registry, mac: string, amount: int, io: FeedIo): (r: FeedTrace)
    ensures mac !in registry ==> r == FeedTrace(registry, false, false, [], false)
    ensures r.registry.Keys == registry.Keys
    ensures forall m :: m in registry && m != mac ==> r.registry[m] == registry[m]
    ensures mac in registry ==> r.connectAttempted == !registry[mac].device.isConnected
    ensures r.connectAttempted && io.link != Returned(true) ==>
      !r.ok && r.writes == [] && !r.refreshRequested
    ensures forall f :: f in r.writes ==> IsFeedFrame(f, amount)
    ensures |r.writes| <= 1
    ensures r.refreshRequested <==> r.writes != [] && io.write.Returned?
    ensures r.ok <==> r.refreshRequested && io.refresh.Returned?
    ensures r.ok ==> mac in registry && 0 <= amount < 256
    ensures mac in registry ==> r.registry[mac].topic == registry[mac].topic
    ensures RegistryValid(registry) ==> RegistryValid(r.registry)
  {
    if mac !in registry then
      FeedTrace(registry, false, false, [], false)
    else
      var entry := registry[mac];
      var attempted := !entry.device.isConnected;
      var c := if attempted then Connect(entry.device, io.link) else After(entry.device, true);
      var registry' := registry[mac := entry.(device := c.device)];
      if !c.result then
        FeedTrace(registry', false, attempted, [], false)
      else
        var sent := FeedNow(c.device, amount, io.write);
        if sent.outcome.Raised? then
          FeedTrace(registry', false, attempted, sent.writes, false)
        else
          FeedTrace(registry', io.refresh.Returned?, attempted, sent.writes, true)
  }

  /** A valid device known to the coordinator that is connected, or that
      connects when asked, is fed: it ends up connected, the feed frame for a
      byte-sized amount is written exactly once, and the call succeeds exactly
      when the amount fits a byte and the write and the refresh request both
      return. */
  lemma FeedReadyDevice(registry: Registry, mac: string, amount: int, io: FeedIo)
    requires mac in registry && Valid(registry[mac].device)
    requires registry[mac].device.isConnected || io.link == Returned(true)
    ensures var r := FeedDevice(registry, mac, amount, io);
      && r.connectAttempted == !registry[mac].device.isConnected
      && r.registry[mac].device.isConnected
      && (r.ok <==> 0 <= amount < 256 && io.write.Returned? && io.refresh.Returned?)
      && (0 <= amount < 256 ==> r.writes == [FeedFrame(amount).value])
  {
    var r := FeedDevice(registry, mac, amount, io);
    if 0 <= amount < 256 {
      FeedFrameExactly(r.writes[0], amount);
    }
  }
}

=== FILE: mac_address.dfy ===
/** Device addresses as the configuration flow validates them: the input is
    upper-cased and matched against `^([0-9A-F]{2}[:]){5}([0-9A-F]{2})$` with
    Python's `re.match`. Strings are restricted to ASCII, where `str.upper`
    maps exactly the letters a-z to A-Z. */
module MacAddress {

  predicate IsAscii(s: string) {
    forall i :: 0 <= i < |s| ==> s[i] < 128 as char
  }

  function UpperChar(c: char): char {
    if 'a' <= c <= 'z' then (c as int - 32) as char else c
  }

  /** `str.upper` on an ASCII string. */
  function Upper(s: string): (u: string)
    ensures |u| == |s|
    ensures forall i :: 0 <= i < |s| ==> u[i] == UpperChar(s[i])
  {
    seq(|s|, i requires 0 <= i < |s| => UpperChar(s[i]))
  }

  predicate IsHexUpper(c: char) {
    '0' <= c <= '9' || 'A' <= c <= 'F'
  }

  /** Reference shape: `u` is `groups` two-digit upper-case hex groups joined
      by single colons, and nothing else. */
  predicate Grouped(u: string, groups: nat) {
    && groups >= 1
    && |u| == 3 * groups - 1
    && forall i :: 0 <= i < |u| ==> if i % 3 == 2 then u[i] == ':' else IsHexUpper(u[i])
  }

  /** The canonical form of a 48-bit address: six groups, e.g. `AA:BB:CC:DD:EE:FF`. */
  predicate Canonical(u: string) {
    Grouped(u, 6)
  }

  /** What `$` accepts after the last group when MULTILINE is off: the end of
      the string, or a single newline that ends the string. */
  predicate AtEnd(rest: string) {
    rest == [] || rest == ['\n']
  }

  /** The regular expression read left to right, as `re.match` runs it:
      `groups - 1` repetitions of `[0-9A-F]{2}[:]`, then `[0-9A-F]{2}`, then `$`. */
  function PatternMatches(u: string, groups: nat): bool
    requires groups >= 1
    decreases groups
  {
    if groups == 1 then
      |u| >= 2 && IsHexUpper(u[0]) && IsHexUpper(u[1]) && AtEnd(u[2..])
    else
      |u| >= 3 && IsHexUpper(u[0]) && IsHexUpper(u[1]) && u[2] == ':'
      && PatternMatches(u[3..], groups - 1)
  }

  /** `_is_valid_mac`, which the configuration flow and the options flow each
      define with the same text. */
  function IsValidMac(mac: string): (ok: bool)
    requires IsAscii(mac)
    ensures ok <==> Canonical(Upper(mac)) || WithTrailingNewline(Upper(mac))
  {
    var u := Upper(mac);
    PatternMatchesShape(u, 6);
    PatternMatches(u, 6)
  }

  /** `u` is a canonical address followed by exactly one newline. */
  predicate WithTrailingNewline(u: string) {
    |u| == 18 && u[17] == '\n' && Canonical(u[..17])
  }

  /** One group split off the front of a grouped string. */
  lemma GroupedStep(u: string, groups: nat)
    requires groups >= 2
    ensures Grouped(u, groups) <==>
      |u| >= 3 && IsHexUpper(u[0]) && IsHexUpper(u[1]) && u[2] == ':' && Grouped(u[3..], groups - 1)
  {
    if Grouped(u, groups) {
      var v := u[3..];
      forall i | 0 <= i < |v|
        ensures if i % 3 == 2 then v[i] == ':' else IsHexUpper(v[i])
      {
        assert v[i] == u[i + 3];
        assert (i + 3) % 3 == i % 3;
      }
    }
    if |u| >= 3 && IsHexUpper(u[0]) && IsHexUpper(u[1]) && u[2] == ':' && Grouped(u[3..], groups - 1) {
      forall i | 0 <= i < |u|
        ensures if i % 3 == 2 then u[i] == ':' else IsHexUpper(u[i])
      {
        if i >= 3 {
          assert u[i] == u[3..][i - 3];
          assert (i - 3) % 3 == i % 3;
        }
      }
    }
  }

  /** The left-to-right matcher accepts exactly the grouped strings, with or
      without one trailing newline. */
  lemma {:induction false} PatternMatchesShape(u: string, groups: nat)
    requires groups >= 1
    ensures PatternMatches(u, groups) <==>
      Grouped(u, groups) || (|u| >= 1 && u[|u| - 1] == '\n' && Grouped(u[..|u| - 1], groups))
    decreases groups
  {
    if groups == 1 {
      if |u| >= 1 && u[|u| - 1] == '\n' && Grouped(u[..|u| - 1], 1) {
        assert u[..|u| - 1][0] == u[0] && u[..|u| - 1][1] == u[1];
        assert u[2..] == ['\n'];
      }
      if PatternMatches(u, 1) && |u| == 3 {
        assert u[2..] == [u[2]];
        assert u[..2] == [u[0], u[1]];
        assert Grouped(u[..2], 1);
      }
      if PatternMatches(u, 1) && |u| == 2 {
        assert Grouped(u, 1);
      }
    } else if |u| < 3 {
      GroupedStep(u, groups);
      if |u| >= 1 {
        GroupedStep(u[..|u| - 1], groups);
      }
    } else {
      PatternMatchesShape(u[3..], groups - 1);
      GroupedStep(u, groups);
      if |u| >= 1 {
        var w := u[..|u| - 1];
        GroupedStep(w, groups);
        if |u| >= 4 {
          assert w[3..] == u[3..][..|u[3..]| - 1];
          assert u[3..][|u[3..]| - 1] == u[|u| - 1];
        }
      }
    }
  }

  /** Upper-casing twice is upper-casing once. */
  lemma {:induction false} UpperIdempotent(s: string)
    ensures Upper(Upper(s)) == Upper(s)
  {
    var u := Upper(s);
    assert forall i :: 0 <= i < |u| ==> UpperChar(u[i]) == u[i];
  }

  /** Validation ignores case: a string and its upper-cased form are
      accepted together. */
  lemma ValidationIgnoresCase(mac: string)
    requires IsAscii(mac)
    ensures IsAscii(Upper(mac))
    ensures IsValidMac(Upper(mac)) == IsValidMac(mac)
  {
    UpperIdempotent(mac);
  }
}

=== FILE: petkit_device.dfy ===
/** One Petkit W5 feeder as the integration drives it over Bluetooth LE:
    the feed-command frame, the connection flag and the cached status.
    Every BLE call is a parameter of the operation that awaits it. */
module PetkitDevice {
  import opened Base

  type byte = b: int | 0 <= b < 256
  type Frame = seq<byte>

  const FRAME_LENGTH := 13
  const FEED_CLASS: byte := 0x01
  const FEED_OP: byte := 0x02
  /** The amount, in grams, the coordinators feed when none is given. */
  const DEFAULT_FEED_AMOUNT := 10

  /** The text of the exception `send_command` raises without a connection
      (Russian for "device not connected"). */
  const NOT_CONNECTED := "Устройство не подключено"
  /** The text of the ValueError `bytearray` raises for a value outside a byte. */
  const BYTE_RANGE := "byte must be in range(0, 256)"

  function Sum(data: seq<byte>): nat {
    if |data| == 0 then 0 else Sum(data[..|data| - 1]) + data[|data| - 1]
  }

  /** `checksum`: the sum of the bytes masked to its low eight bits. */
  function Checksum(data: seq<byte>): byte {
    Sum(data) % 256
  }

  lemma {:induction false} SumAppend(a: seq<byte>, b: seq<byte>)
    ensures Sum(a + b) == Sum(a) + Sum(b)
    decreases |b|
  {
    if |b| == 0 {
      assert a + b == a;
    } else {
      var b' := b[..|b| - 1];
      assert (a + b)[..|a + b| - 1] == a + b';
      SumAppend(a, b');
    }
  }

  lemma {:induction false} SumUpdate(data: seq<byte>, i: int, v: byte)
    requires 0 <= i < |data|
    ensures Sum(data[i := v]) == Sum(data) - data[i] + v
    decreases |data|
  {
    var n := |data| - 1;
    if i < n {
      assert data[i := v][..n] == data[..n][i := v];
      SumUpdate(data[..n], i, v);
    } else {
      assert data[i := v][..n] == data[..n];
    }
  }

  /** Reduction modulo 256 commutes with addition. */
  lemma ModAdd(x: int, y: int)
    ensures (x + y) % 256 == (x % 256 + y % 256) % 256
  {
    var qx, qy := x / 256, y / 256;
    assert x == 256 * qx + x % 256;
    assert y == 256 * qy + y % 256;
    assert x + y == 256 * (qx + qy) + (x % 256 + y % 256);
  }

  /** The checksum of a concatenation is the byte sum of the parts' checksums. */
  lemma ChecksumConcat(a: seq<byte>, b: seq<byte>)
    ensures Checksum(a + b) == (Checksum(a) + Checksum(b)) % 256
  {
    SumAppend(a, b);
    ModAdd(Sum(a), Sum(b));
  }

  /** The checksum is a running sum kept in one byte: nothing sums to 0, and
      each further byte is added modulo 256. */
  lemma ChecksumSnoc(data: seq<byte>, b: byte)
    ensures Checksum([]) == 0
    ensures Checksum(data + [b]) == (Checksum(data) + b) % 256
  {
    SumAppend(data, [b]);
    assert [b][..0] == [];
    ModAdd(Sum(data), b);
  }

  /** Replacing any one byte by a different value changes the checksum: the
      trailing byte detects every single-byte corruption. */
  lemma ChecksumDetectsByteChange(data: seq<byte>, i: int, v: byte)
    requires 0 <= i < |data|
    requires v != data[i]
    ensures Checksum(data[i := v]) != Checksum(data)
  {
    SumUpdate(data, i, v);
    var s: int, s': int := Sum(data), Sum(data[i := v]);
    var delta := v - data[i];
    assert s' == s + delta && -256 < delta < 256 && delta != 0;
  }

  /** The layout of a feed command: class 0x01, operation 0x02, the amount,
      nine reserved zero bytes, then the checksum of the twelve bytes before it. */
  predicate IsFeedFrame(f: Frame, amount: int) {
    && |f| == FRAME_LENGTH
    && f[0] == FEED_CLASS
    && f[1] == FEED_OP
    && f[2] == amount
    && (forall i :: 3 <= i < 12 ==> f[i] == 0)
    && f[12] == Checksum(f[..12])
  }

  /** The frame `feed_now` builds. `bytearray` raises before anything is
      written when the amount does not fit in a byte. The checksum is taken
      over all thirteen bytes while the last one is still zero. */
  function FeedFrame(amount: int): (r: Io<Frame>)
    ensures r.Returned? <==> 0 <= amount < 256
    ensures r.Returned? ==> IsFeedFrame(r.value, amount)
    ensures r.Returned? ==> r.value[12] == (FEED_CLASS + FEED_OP + amount) % 256
    ensures r.Raised? ==> r.message == BYTE_RANGE
  {
    if 0 <= amount < 256 then
      var cmd: Frame := [FEED_CLASS, FEED_OP, amount, 0, 0, 0, 0, 0, 0, 0, 0, 0, 0];
      FeedChecksum(cmd);
      Returned(cmd[12 := Checksum(cmd)])
    else
      Raised(BYTE_RANGE)
  }

  lemma FeedChecksum(cmd: Frame)
    requires |cmd| == FRAME_LENGTH && cmd[12] == 0
    requires cmd[0] == FEED_CLASS && cmd[1] == FEED_OP
    requires forall i :: 3 <= i < 12 ==> cmd[i] == 0
    ensures Checksum(cmd) == Checksum(cmd[12 := Checksum(cmd)][..12])
    ensures Checksum(cmd) == (FEED_CLASS + FEED_OP + cmd[2]) % 256
  {
    assert cmd == cmd[..12] + [0];
    SumAppend(cmd[..12], [0]);
    assert cmd[12 := Checksum(cmd)][..12] == cmd[..12];
    var p := cmd[..12];
    assert p == [FEED_CLASS, FEED_OP, cmd[2]] + p[3..];
    SumAppend([FEED_CLASS, FEED_OP, cmd[2]], p[3..]);
    ZeroSum(p[3..]);
    assert [FEED_CLASS, FEED_OP, cmd[2]][..2] == [FEED_CLASS, FEED_OP];
    assert [FEED_CLASS, FEED_OP][..1] == [FEED_CLASS];
    assert [FEED_CLASS][..0] == [];
    assert Sum([FEED_CLASS]) == FEED_CLASS;
    assert Sum([FEED_CLASS, FEED_OP]) == FEED_CLASS + FEED_OP;
    assert Sum([FEED_CLASS, FEED_OP, cmd[2]]) == FEED_CLASS + FEED_OP + cmd[2];
    assert [0 as byte][..0] == [];
    assert Sum(cmd) == Sum(p);
  }

  lemma {:induction false} ZeroSum(z: seq<byte>)
    requires forall i :: 0 <= i < |z| ==> z[i] == 0
    ensures Sum(z) == 0
    decreases |z|
  {
    if |z| > 0 {
      ZeroSum(z[..|z| - 1]);
    }
  }

  /** The frame layout determines the frame: `FeedFrame` produces exactly the
      frames of feed layout, one per byte-sized amount. */
  lemma FeedFrameExactly(f: Frame, amount: int)
    ensures IsFeedFrame(f, amount) <==> FeedFrame(amount) == Returned(f)
  {
    if IsFeedFrame(f, amount) {
      var g := FeedFrame(amount).value;
      assert forall i :: 0 <= i < 12 ==> f[i] == g[i];
      assert f[..12] == g[..12];
      assert f == g;
    }
  }

  /** The frame for the default amount of 10 g: `01 02 0A 00 .. 00 0D`. */
  lemma DefaultFeedFrame()
    ensures FeedFrame(DEFAULT_FEED_AMOUNT)
         == Returned([0x01, 0x02, 0x0A, 0, 0, 0, 0, 0, 0, 0, 0, 0, 0x0D])
  {
    var f: Frame := [0x01, 0x02, 0x0A, 0, 0, 0, 0, 0, 0, 0, 0, 0, 0x0D];
    assert IsFeedFrame(f, 10) by {
      var p := f[..12];
      assert p == [0x01, 0x02, 0x0A] + p[3..];
      SumAppend([0x01, 0x02, 0x0A], p[3..]);
      ZeroSum(p[3..]);
      assert [0x01, 0x02, 0x0A][..2] == [0x01, 0x02];
      assert [0x01, 0x02][..1] == [0x01];
      assert [0x01][..0] == [];
    }
    FeedFrameExactly(f, 10);
  }

  /** A `PetkitW5Device`: its address, whether `client` holds a BleakClient,
      the `is_connected` flag and `last_data`. */
  datatype Device = Device(mac: string, hasClient: bool, isConnected: bool, lastData: Record)

  /** A device together with what the operation returned. */
  datatype After<+T> = After(device: Device, result: T)

  /** What one command send did: the frames handed to `write_gatt_char`
      (a write that raised still counts as attempted) and how it ended. */
  datatype Sent = Sent(writes: seq<Frame>, outcome: Io<()>)

  /** A device is only marked connected once it has a client, and it only
      ever caches the placeholder reading. */
  predicate Valid(d: Device) {
    && (d.isConnected ==> d.hasClient)
    && (d.lastData == Empty || d.lastData == PLACEHOLDER)
  }

  /** `PetkitW5Device(mac)`: no client, not connected, nothing cached. */
  function NewDevice(mac: string): (d: Device)
    ensures Valid(d)
    ensures d.mac == mac && !d.hasClient && !d.isConnected && d.lastData == Empty
  {
    Device(mac, false, false, Empty)
  }

  /** `connect`: a fresh client is created, then `link` is the outcome of
      awaiting its `connect()` and `is_connected()`. Any exception is
      swallowed and reported as `False`. */
  function Connect(d: Device, link: Io<bool>): (r: After<bool>)
    ensures r.device.isConnected == r.result
    ensures r.result <==> link == Returned(true)
    ensures r.device.hasClient
    ensures r.device.mac == d.mac && r.device.lastData == d.lastData
    ensures Valid(d) ==> Valid(r.device)
  {
    var d' := d.(hasClient := true);
    match link
    case Returned(up) => After(d'.(isConnected := up), up)
    case Raised(_) => After(d'.(isConnected := false), false)
  }

  /** `disconnect`: only a connected device with a client is told to
      disconnect; a failure is logged and leaves the flag set. */
  function Disconnect(d: Device, link: Io<()>): (r: Device)
    ensures !(d.hasClient && d.isConnected) ==> r == d
    ensures link.Raised? ==> r == d
    ensures link.Returned? && Valid(d) ==> !r.isConnected
    ensures r == d || r == d.(isConnected := false)
    ensures Valid(d) ==> Valid(r)
  {
    if d.hasClient && d.isConnected then
      match link
      case Returned(_) => d.(isConnected := false)
      case Raised(_) => d
    else
      d
  }

  /** Disconnecting twice is disconnecting once: after a successful
      disconnect the second call touches nothing, whatever its outcome. */
  lemma DisconnectIdempotent(d: Device, link: Io<()>)
    ensures Disconnect(Disconnect(d, Returned(())), link) == Disconnect(d, Returned(()))
  {
  }

  /** `send_command`: refuses without a connection and a client, raising
      before any write; otherwise writes once and re-raises a failed write. */
  function SendCommand(d: Device, cmd: Frame, write: Io<()>): (r: Sent)
    ensures r.writes == [] <==> !(d.isConnected && d.hasClient)
    ensures r.writes != [] ==> r.writes == [cmd] && r.outcome == write
    ensures r.writes == [] ==> r.outcome == Raised(NOT_CONNECTED)
  {
    if !d.isConnected || !d.hasClient then
      Sent([], Raised(NOT_CONNECTED))
    else
      Sent([cmd], write)
  }

  /** `feed_now`: builds the feed frame and sends it. The device itself is
      not changed. */
  function FeedNow(d: Device, amount: int, write: Io<()>): (r: Sent)
    ensures r.outcome.Returned? <==>
      0 <= amount < 256 && d.isConnected && d.hasClient && write.Returned?
    ensures forall f :: f in r.writes ==> IsFeedFrame(f, amount)
    ensures |r.writes| <= 1
    ensures !(0 <= amount < 256) ==> r == Sent([], Raised(BYTE_RANGE))
    ensures 0 <= amount < 256 && d.isConnected && d.hasClient ==>
      |r.writes| == 1 && IsFeedFrame(r.writes[0], amount) && r.outcome == write
    ensures 0 <= amount < 256 && !(d.isConnected && d.hasClient) ==>
      r == Sent([], Raised(NOT_CONNECTED))
  {
    match FeedFrame(amount)
    case Raised(message) => Sent([], Raised(message))
    case Returned(cmd) => SendCommand(d, cmd, write)
  }

  /** `get_status`: a disconnected device reports offline and keeps its
      cache; a connected one reports the placeholder reading and caches it.
      `clock` is the event-loop time read for `last_update`, the only call
      in the `try` block; if it raised, the error record is returned and the
      cache is kept. */
  function GetStatus(d: Device, clock: Io<()>): (r: After<Record>)
    ensures !d.isConnected ==> r == After(d, Offline)
    ensures d.isConnected && clock.Returned? ==>
      r.result == PLACEHOLDER && r.device == d.(lastData := r.result)
    ensures d.isConnected && clock.Raised? ==> r == After(d, Error(clock.message))
    ensures Valid(d) ==> Valid(r.device)
  {
    if !d.isConnected then
      After(d, Offline)
    else
      match clock
      case Returned(_) => After(d.(lastData := PLACEHOLDER), PLACEHOLDER)
      case Raised(message) => After(d, Error(message))
  }

  /** Only `get_status` writes the cache, and only on success, so whatever a
      device has cached is exactly what it last reported as online. */
  lemma StatusCachesWhatItReports(d: Device, clock: Io<()>)
    ensures var r := GetStatus(d, clock);
      r.device.lastData == (if r.result.Online? then r.result else d.lastData)
  {
  }
}

=== FILE: root_coordinator.dfy ===
/** The earlier `PetkitW5Coordinator` kept at the repository root. It opens a
    short-lived BLE session per read or feed, falls back to MQTT when BLE
    gives nothing, and reports offline when neither does. Both MQTT legs are
    still stubs. */
module RootCoordinator {
  import opened Base

  /** One `async with BleakClient(mac) as client` block: `enter` is the
      connect on entry followed by `client.is_connected`; `stamp` is the
      clock read for `last_update`; `exit` is the disconnect on leaving. */
  datatype BleSession = BleSession(enter: Io<bool>, stamp: Io<()>, exit: Io<()>)

  /** `_get_ble_data`: the placeholder reading when the session connects,
      the clock is read and the session closes cleanly; `None` otherwise,
      either from the handler or by falling off the end of the block. */
  function BleData(s: BleSession): (r: Option<Record>)
    ensures r.Some? <==> s.enter == Returned(true) && s.stamp.Returned? && s.exit.Returned?
    ensures r.Some? ==> r.value == PLACEHOLDER
  {
    match s.enter
    case Raised(_) => None
    case Returned(up) =>
      if !up then None                        // no return in the block, or exit raised
      else if s.stamp.Raised? then None       // caught by the handler
      else if s.exit.Raised? then None        // leaving the block raised after the return
      else Some(PLACEHOLDER)
  }

  /** `_get_mqtt_data`, a stub. */
  function MqttData(mac: string): (r: Option<Record>)
    ensures !Truthy(r)
  {
    None
  }

  /** `_get_device_data`'s ordered fallback: the first truthy source wins,
      BLE before MQTT; with neither, the device is offline. */
  function Fallback(ble: Option<Record>, mqtt: Option<Record>): (r: Record)
    ensures Truthy(ble) ==> r == ble.value
    ensures !Truthy(ble) && Truthy(mqtt) ==> r == mqtt.value
    ensures !Truthy(ble) && !Truthy(mqtt) ==> r == Offline
    ensures r != Empty
  {
    if Truthy(ble) then ble.value
    else if Truthy(mqtt) then mqtt.value
    else Offline
  }

  /** `_get_device_data`. Because the MQTT leg never yields data, a device
      is online with the placeholder reading exactly when its BLE session
      succeeded, and offline otherwise. */
  function GetDeviceData(mac: string, s: BleSession): (r: Record)
    ensures r == (if BleData(s).Some? then BleData(s).value else Offline)
    ensures r == PLACEHOLDER <==> s.enter == Returned(true) && s.stamp.Returned? && s.exit.Returned?
    ensures r == PLACEHOLDER || r == Offline
  {
    Fallback(BleData(s), MqttData(mac))
  }

  /** What polling one device met: its BLE session, and `fault`, an
      exception escaping `_get_device_data`, which the loop catches. */
  datatype Probe = Probe(session: BleSession, fault: Option<string>)

  /** The body of the per-device `try` block with its `except` handler. */
  function DeviceEntry(mac: string, p: Probe): (r: Record)
    ensures p.fault.Some? ==> r == Error(p.fault.value)
    ensures p.fault.None? ==> r == PLACEHOLDER || r == Offline
  {
    match p.fault
    case Some(message) => Error(message)
    case None => GetDeviceData(mac, p.session)
  }

  /** `_async_update_data`: one entry per configured address, the last entry
      for an address deciding its value. */
  function UpdateData(configs: seq<DeviceConfig>, probes: seq<Probe>): (r: map<string, Record>)
    requires |probes| == |configs|
    ensures r.Keys == MacsOf(configs)
  {
    if |configs| == 0 then map[]
    else
      var n := |configs| - 1;
      var prefix := configs[..n];
      assert configs == prefix + [configs[n]];
      MacsOfSnoc(prefix, configs[n]);
      UpdateData(prefix, probes[..n])[configs[n].mac := DeviceEntry(configs[n].mac, probes[n])]
  }

  /** The value of each address is what polling its last entry produced. */
  lemma {:induction false} UpdateDataLast(configs: seq<DeviceConfig>, probes: seq<Probe>)
    requires |probes| == |configs|
    ensures var r := UpdateData(configs, probes);
      forall i :: 0 <= i < |configs| && LastFor(configs, i) ==>
        r[configs[i].mac] == DeviceEntry(configs[i].mac, probes[i])
  {
    if |configs| > 0 {
      var n := |configs| - 1;
      var prefix := configs[..n];
      var ps := probes[..n];
      UpdateDataLast(prefix, ps);
      LastForPrefix(configs);
      var r0 := UpdateData(prefix, ps);
      assert UpdateData(configs, probes) == r0[configs[n].mac := DeviceEntry(configs[n].mac, probes[n])];
      forall i | 0 <= i < n && LastFor(configs, i)
        ensures UpdateData(configs, probes)[configs[i].mac] == DeviceEntry(configs[i].mac, probes[i])
      {
        assert configs[i] == prefix[i] && probes[i] == ps[i];
        assert configs[i].mac != configs[n].mac;
      }
    }
  }

  /** Some entry naming `m` met a fault. */
  predicate FaultFor(configs: seq<DeviceConfig>, probes: seq<Probe>, m: string)
    requires |probes| == |configs|
  {
    exists i :: 0 <= i < |configs| && configs[i].mac == m && probes[i].fault.Some?
  }

  /** Every entry of the aggregate is the placeholder reading or offline,
      unless an entry naming that address met a fault: without faults no
      device is ever reported as an error. */
  lemma {:induction false} UpdateDataEntries(configs: seq<DeviceConfig>, probes: seq<Probe>)
    requires |probes| == |configs|
    ensures var r := UpdateData(configs, probes);
      forall m :: m in r && !FaultFor(configs, probes, m) ==> r[m] == PLACEHOLDER || r[m] == Offline
  {
    if |configs| > 0 {
      var n := |configs| - 1;
      var c, p := configs[..n], probes[..n];
      UpdateDataEntries(c, p);
      var r0 := UpdateData(c, p);
      var r := UpdateData(configs, probes);
      assert r == r0[configs[n].mac := DeviceEntry(configs[n].mac, probes[n])];
      forall m | m in r && !FaultFor(configs, probes, m)
        ensures r[m] == PLACEHOLDER || r[m] == Offline
      {
        if m == configs[n].mac {
          assert !probes[n].fault.Some?;
        } else {
          assert !FaultFor(c, p, m) by {
            forall i | 0 <= i < n && c[i].mac == m ensures p[i].fault.None? {
              assert configs[i] == c[i] && probes[i] == p[i];
            }
          }
        }
      }
    }
  }

  /** One `async with BleakClient(mac)` block that sends nothing yet:
      `enter` is the connect and `client.is_connected`, `exit` the
      disconnect on leaving. */
  datatype BleLink = BleLink(enter: Io<bool>, exit: Io<()>)

  /** `_send_ble_feed_command`: `True` on a connected session that closes
      cleanly, `False` from the handler, and `None` when the block ends
      without returning. The amount is not used yet. */
  function BleFeed(mac: string, amount: int, s: BleLink): (r: Option<bool>)
    ensures r == Some(true) <==> s.enter == Returned(true) && s.exit.Returned?
    ensures r == None <==> s.enter == Returned(false) && s.exit.Returned?
  {
    match s.enter
    case Raised(_) => Some(false)
    case Returned(up) =>
      if s.exit.Raised? then Some(false)
      else if up then Some(true)
      else None
  }

  /** `_send_mqtt_feed_command`, a stub. */
  function MqttFeed(mac: string, amount: int): (r: Option<bool>)
    ensures r != Some(true)
  {
    Some(false)
  }

  /** What `feed_device` returned, and whether it tried MQTT. */
  datatype FeedAttempt = FeedAttempt(result: Option<bool>, mqttTried: bool)

  /** The ordered attempt of `feed_device`: BLE first, and MQTT, whose
      answer is returned as it is, only when BLE did not return `True`.
      Feeding succeeds when either leg does, and MQTT is never tried after a
      BLE success. */
  function FeedWith(ble: Option<bool>, mqtt: Option<bool>): (r: FeedAttempt)
    ensures r.result == Some(true) <==> ble == Some(true) || mqtt == Some(true)
    ensures r.mqttTried <==> ble != Some(true)
    ensures r.result != Some(true) ==> r.result == mqtt
  {
    if ble == Some(true) then FeedAttempt(Some(true), false)
    else FeedAttempt(mqtt, true)
  }

  /** `feed_device`. `fault` is an exception escaping both legs, which its
      handler turns into `False`; it is taken to strike in the BLE leg, before
      MQTT is tried. With the MQTT stub, feeding succeeds exactly when the BLE
      leg did, MQTT is tried exactly when that leg ended without success, and
      the answer is always a boolean. */
  function FeedDevice(mac: string, amount: int, s: BleLink, fault: Option<string>): (r: FeedAttempt)
    ensures fault.Some? ==> r == FeedAttempt(Some(false), false)
    ensures r.result == Some(true) <==> fault.None? && BleFeed(mac, amount, s) == Some(true)
    ensures r.result == Some(true) <==> fault.None? && s.enter == Returned(true) && s.exit.Returned?
    ensures r.mqttTried <==> fault.None? && BleFeed(mac, amount, s) != Some(true)
    ensures r.result.Some?
  {
    match fault
    case Some(_) => FeedAttempt(Some(false), false)
    case None => FeedWith(BleFeed(mac, amount, s), MqttFeed(mac, amount))
  }
}
